=== FILE: README.md ===
# Multi-room chat relay: registry and command state machine

This project models the core of a multi-room TCP chat server (`server.py`).
The server keeps one shared registry under a lock:
- `clients` maps each connection to its username.
- `rooms` maps each room name to its set of member connections. It starts with the empty rooms `general`, `tech` and `random`.

Each connection has a handler thread. The handler reads a username, then reads one line at a time:
- it ignores blank input;
- it runs a slash command: `/quit`, `/rooms`, `/users`, `/list`, `/join <room>`, `/leave` or `/dm <user> <message>`;
- it treats anything else as a chat line for its current room.

When the handler ends, it removes its connection from the registry.

Every change to the registry but one happens in one short locked block. The exception is the room creation of `/join`, which runs outside the lock; see "## Left out". So the model is sequential: each event on one connection is a single atomic step over immutable maps and sets. Connections are abstract ids (`Conn = nat`).

Modules:
- `Wrappers`: `Option` and `Result`.
- `Text`: ASCII models of Python's `str.strip()`, `str.lower()` and `str.split(" ", 2)`. `split` is characterised by its inverse `JoinSpace` and a uniqueness lemma.
- `Registry`: the shared maps and one pure function per critical section. These are registration, `/join`, `/leave`, disconnect cleanup and broadcast target selection. The module also has the username lookup of `dm` and the `/users`, `/list` and `/rooms` queries, written as methods that enumerate sets.
- `Commands`: trimming, classification, and the command chain with its argument-count guards. Round-trip lemmas show which lines parse to which command.
- `Session`: the per-handler phase (`Awaiting`, then `Active(username, room)`, then `Closed`), the world step for socket events, and the outputs each step sends. An output is a record kind, what the record says, and the exact set of connections it reaches.
- `Invariants`: the registry invariant and its preservation by every step. The invariant has four parts. The room `general` exists. Usernames are unique. Registered connections are exactly the active handlers. Each registered connection is in exactly one room, its handler's `current_room`.
- `Behaviour`: what clients observe, stated over worlds that satisfy the invariant.

Three behaviours of the code that are easy to miss, which the model follows:
- The first read after connecting is trimmed and registered, even when it is empty. An empty name is accepted if nobody holds it. Such a user's departure is not announced, because `if username:` at line 171 is false for an empty name.
- The departure notice goes to `general` only. That is `broadcast`'s default room at line 22.
- `/join` with two spaces before the room name joins the room `""`. `split(" ", 2)` yields an empty second part.

## Model

| member | source | states |
|---|---|---|
| Registry.Initial | server.py:17-18 | The registry starts with no clients and exactly the rooms `general`, `tech` and `random`, all empty. |
| Registry.Register | server.py:81-87 | Registration fails exactly when the name is already held. On success it adds exactly `c ↦ name` to `clients` and adds `c` to `general` only, with every other membership unchanged. It keeps usernames pairwise distinct. |
| Registry.JoinRoom | server.py:126-134 | The new room is the lowercased argument, and all known room names are kept. If the room was unknown, it is created holding only `c`. `c` ends up in the new room and not in the old one, unless they are the same room. No other connection's membership changes, and `clients` is untouched. |
| Registry.LeaveRoom | server.py:139-144 | `c` ends up in `general` and is no longer in its former room. No other connection's membership changes. |
| Registry.Disconnect | server.py:166-170 | A registered `c` leaves `clients` and every room, and its username is reported. Everything else stays. An unregistered `c` changes nothing. |
| Registry.BroadcastTargets | server.py:31-35 | The targets are the room's members minus the sender. An unknown room gives no targets, and a missing sender excludes nobody. |
| Registry.FindByUsername | server.py:44 | Finds a connection registered under the name exactly when the name is online. With unique names, that connection is the only holder. |
| Registry.RoomUsers | server.py:117-119 | Lists each registered member of the room exactly once, each with its username. |
| Registry.OnlineUsers | server.py:122-124 | Lists every registered connection exactly once, each with its username. |
| Registry.RoomSummaries | server.py:113 | Lists every room exactly once, each with its member count. |
| Registry.LeaveFromGeneralKeeps | server.py:139-142 | `/leave` while already in `general` leaves the registry unchanged. |
| Registry.JoinCurrentRoomKeeps | server.py:126-132 | Joining the room one is already in leaves the registry unchanged. |
| Registry.DisconnectIdempotent | server.py:166-170 | A second cleanup of the same connection changes nothing and reports no departure. |
| Text.Strip | server.py:100 | The result is the input with whitespace removed from both ends. It is empty exactly when the input is all whitespace. |
| Text.StripIdempotent | server.py:100 | Trimming twice gives the same result as trimming once. |
| Text.Lower | server.py:107 | Every character is lowercased and the length is kept. |
| Text.Split2 | server.py:106 | Gives one to three parts that glue back to the line with single spaces. Only the third part may contain a space. |
| Text.SplitUnique | server.py:106 | Any split with that shape that glues back to the line is the split itself. |
| Commands.Parse | server.py:100-106 | A read is ignored exactly when it is all whitespace. It is a chat line exactly when its trimmed form does not start with `/`, and the chat text is the trimmed line. Otherwise it is a command, chosen from the `split(" ", 2)` parts of the trimmed line. |
| Commands.ParseStrip | server.py:100 | Surrounding whitespace never changes how a read is classified. |
| Commands.Dispatch | server.py:106-157 | Each command is selected exactly when the lowercased first word is its word. `/join` also needs a second part, which becomes the room, and `/dm` needs a third, with target and body taken from the parts. Every other line is an unknown command. |
| Commands.DispatchWord | server.py:126-157 | `/join` needs a second part and `/dm` a third; otherwise the result is "Unknown command.". Any other word is an unknown command. |
| Commands.ParseJoin | server.py:106-127 | `<w> <room>` is a join of `room` whenever `w` lowercases to `/join`. |
| Commands.ParseDm | server.py:148-150 | `<w> <user> <body>` is a DM whose body keeps its inner spaces. |
| Commands.ParseBareWord | server.py:126-157 | A bare `/join`, a bare `/dm` and any unknown word are unknown commands. |
| Commands.ParseDmWithoutBody | server.py:148-157 | `/dm <user>` without a body is an unknown command. |
| Commands.ParseUnknownWord | server.py:156-157 | A line whose first word is not a command word is an unknown command, whatever follows it. |
| Session.Login | server.py:78-92 | A taken name closes the handler with an error and leaves the registry as it was. A free name registers `c` exactly as `Register` does, so every other room and membership is kept, makes the handler active in `general`, welcomes `c`, and announces the user to exactly the members of `general` after registration, `c` itself included. |
| Session.Hangup | server.py:165-174 | The handler is finished, the registry is cleaned as by `Disconnect`, and no other handler changes. A departure notice goes out exactly when `c` was registered under a non-empty name. It names that user and reaches exactly the remaining members of `general`, never `c`. |
| Session.SendChat | server.py:158-161 | Corrected chat path. The line goes to every other member of the sender's room and is echoed to the sender. The world does not change. |
| Session.Execute | server.py:107-157 | `/quit` is cleanup. `/rooms`, `/users`, `/list`, `/dm` and unknown commands change nothing. `/rooms` replies with every room and its member count, `/users` with the registered members of the issuer's room, `/list` with every registered connection. `/join` moves the issuer into the lowercased room and `/leave` into `general`. Each then sends a notice to the room left, whose members no longer include the issuer, a notice to the room entered, whose members include the issuer, and an acknowledgement to the issuer. |
| Session.Step | server.py:72-174 | An event on one connection changes only that connection's handler and registry entry. No other handler, no other connection's username and no other connection's room membership changes. `Behaviour.FirstReadLogsIn` and `Behaviour.ReadDispatch` state what a read does in each phase. Only an accept brings a new connection into the world. |
| Session.BroadcastAsWritten | server.py:22-39 | As-written `broadcast`. It succeeds exactly when there is no sender, and then reaches the room's members. |
| Invariants.ExactlyOneRoom | server.py:86-87 | Under the invariant, the rooms containing a registered connection are exactly its handler's current room. |
| Invariants.LoginPreservesInv | server.py:81-87 | Registration preserves the invariant. |
| Invariants.JoinPreservesInv | server.py:126-134 | `/join` preserves the invariant. |
| Invariants.LeavePreservesInv | server.py:139-144 | `/leave` preserves the invariant. |
| Invariants.HangupPreservesInv | server.py:165-170 | Cleanup preserves the invariant. |
| Invariants.StepPreservesInv | server.py:95-161 | Every event preserves the invariant. |
| Invariants.RunPreservesInv | server.py:95-170 | Any sequence of events preserves the invariant. |
| Invariants.ReachableInv | server.py:17-18 | Every world reachable from the initial state satisfies the invariant. |
| Behaviour.LoginTakenKeepsHolder | server.py:81-85 | A taken name is refused without touching the registry, and the existing holder keeps its name. |
| Behaviour.LoginFreePlacesInGeneral | server.py:86-87 | A free name is bound to `c`, which then sits in `general` and in no other room. |
| Behaviour.UsersAreRoommates | server.py:118 | `/users` reports exactly the connections whose handler is in the issuer's room. |
| Behaviour.JoinThenUsers | server.py:126-134 | After `/join X`, `/users` in `X` includes the issuer and the old room's `/users` excludes it. No other handler moves. |
| Behaviour.JoinNotices | server.py:126-134 | The `/join` notices reach, in handler terms, the others still in the room left and everyone now in the room joined. |
| Behaviour.LeaveNotices | server.py:139-146 | The `/leave` notices reach, in handler terms, the others still in the room left and everyone now in `general`. |
| Behaviour.LeaveInGeneralKeepsRegistry | server.py:139-146 | `/leave` from `general` leaves the world unchanged. |
| Behaviour.ChatReachesRoommates | server.py:159-161 | Corrected chat path. The line reaches exactly the other handlers in the sender's room, and exactly one echo goes to the sender alone. |
| Behaviour.ChatAsWrittenDropsSender | server.py:159 | As written, a chat line ends the sender's session. The sender leaves `clients` and every room, and no chat message or echo is sent. |
| Behaviour.ChatAsWrittenIsAbort | server.py:159 | As written, a chat line has exactly the effect of an abort of the sender's connection. |
| Behaviour.DmReachesOwner | server.py:148-154 | A DM succeeds exactly when an active handler holds the target name and the write succeeds. The outputs are then exactly the message to that one connection and the confirmation to the issuer; otherwise the issuer gets "not found or offline". |
| Behaviour.FirstReadLogsIn | server.py:78-92 | The first read on a fresh handler is taken as the username and handled by `Login`. |
| Behaviour.ReadDispatch | server.py:96-161 | For an active handler, an end-of-stream read runs the cleanup, a chat line goes through `SendChat`, and a command goes through `Execute` on the parsed command. |
| Behaviour.HangupClearsOnce | server.py:166-173 | Cleanup removes the connection everywhere and keeps every other membership. It announces the departure only for a non-empty username, to exactly the other handlers in `general`. Every later accept, read or abort on the connection does nothing. |
| Behaviour.BlankLineIgnored | server.py:100-102 | A whitespace-only read changes nothing and sends nothing. |
| Behaviour.SecondAliceRefused | server.py:81-85 | Scenario: a second `alice` is refused, and the first stays registered in `general`. |

## Findings

| source | as written | input that shows it | evidently intended | confidence | as-written member | corrected member |
|---|---|---|---|---|---|---|
| server.py:159 | The chat path calls `broadcast(message, room=current_room, sender=conn)`. `sender or "Server"` at line 26 then puts the socket object into the record. `json.dumps` at line 23 raises `TypeError` before anything is sent, and the exception ends the handler through its cleanup. | A registered user sends the plain line `hi` | Relay the line to the other members of the room and echo it to the sender | high (not executed) | Session.SendChatAsWritten | Session.SendChat |

`Behaviour.ChatAsWrittenDropsSender` proves the as-written behaviour: the sender is disconnected and nothing is relayed. `Behaviour.ChatReachesRoommates` proves the intended property about `Session.SendChat`. The world step `Session.Step` uses the corrected definition.

## Left out

- Socket I/O is left out: `recv`, `sendall`, `close`, byte decoding, and the accept loop with its backlog (server.py:177-195). Reads arrive as `Recv` events, with `""` for end of stream. Read errors and decode failures arrive as `Abort` events. Broadcast send failures change no state, so they are not modelled.
- Threads and the lock are left out. Each locked block is one atomic step.
- The data race at server.py:128-129 is left out: `/join` creates a missing room outside the lock.
- The deadlock at server.py:172 is left out. That line broadcasts the departure while holding the lock, and `broadcast` takes the same non-reentrant lock again at line 31. The model treats the departure notice as sent after the cleanup.
- The JSON records, their text and the `HH:MM` timestamps are left out. An output records its kind, a structured note of what it says, and the set of connections it reaches. The only part of the encoding that is modelled is whether the `sender` field can be encoded. It is needed for the finding above.
- Python's Unicode `strip` and `lower` are modelled on ASCII only. Non-ASCII whitespace is treated as ordinary text, and non-ASCII letters are not lowercased.
- `print` logging and all of `client.py` are left out.
- Registry.RoomSummaries: does not state the order of `/rooms`, which follows dict insertion order in the source. Room order is not part of the model's state.
- Registry.RoomUsers: does not state the order of the names, which follows set iteration order in the source.
- Registry.OnlineUsers: does not state the order of the names, which follows dict insertion order in the source.
- Registry.FindByUsername: returns some connection holding the name, where the source returns the first in insertion order. The two agree while usernames are unique, which the invariant guarantees.
- Session.Step: relays chat lines through the corrected `SendChat`. As written, a chat line ends the session. `Behaviour.ChatAsWrittenIsAbort` shows that this is exactly an `Abort` step, so the invariant proved for `Step` covers the server as written too.
- Session.Step: sends a DM to every holder of the target name. Under the invariant there is at most one, which is what the source's `next(...)` picks.
- Registry.AddMember and Registry.DiscardMember: a missing room is created or skipped, where the source would raise `KeyError`. Under the invariant, the rooms indexed this way always exist.

=== FILE: behaviour.dfy ===
/**
 * What a client observes, stated over worlds that satisfy the registry
 * invariant: registration, room moves, queries, direct messages, chat
 * fan-out and disconnect cleanup.
 */
module Behaviour {
  import opened Text
  import opened Registry
  import opened Commands
  import opened Session
  import opened Invariants

  /** The connections whose handler is active in `room`. */
  ghost function InRoomNow(w: World, room: string): set<Conn> {
    set c | c in w.handlers && w.handlers[c].Active? && w.handlers[c].room == room
  }

  /** A taken username is refused: the registry is untouched, the existing
      holder keeps the name, and the newcomer's handler ends. */
  lemma LoginTakenKeepsHolder(w: World, c: Conn, data: string, holder: Conn)
    requires Inv(w)
    requires c in w.handlers && w.handlers[c] == Awaiting
    requires holder in w.shared.clients && w.shared.clients[holder] == Strip(data)
    ensures Login(w, c, data).world.shared == w.shared
    ensures Login(w, c, data).world.handlers[c] == Closed
    ensures Login(w, c, data).world.handlers[holder] == w.handlers[holder]
    ensures Login(w, c, data).out == [Reply(c, Error, Taken(Strip(data)))]
  {
    assert c != holder;
  }

  /** A free username registers the connection in `general` and nowhere
      else, with an active handler whose current room is `general`. */
  lemma LoginFreePlacesInGeneral(w: World, c: Conn, data: string)
    requires Inv(w)
    requires c in w.handlers && w.handlers[c] == Awaiting
    requires Strip(data) !in w.shared.clients.Values
    ensures var w' := Login(w, c, data).world;
      && w'.shared.clients == w.shared.clients[c := Strip(data)]
      && (set r | r in w'.shared.rooms && c in w'.shared.rooms[r]) == {General}
      && w'.handlers[c] == Active(Strip(data), General)
  {
    LoginPreservesInv(w, c, data);
    ExactlyOneRoom(Login(w, c, data).world, c);
  }

  /** Under the invariant, `/users` reports exactly the connections whose
      handler is in the same room. */
  lemma UsersAreRoommates(w: World, room: string)
    requires Inv(w)
    ensures RegisteredMembers(w.shared, room) == InRoomNow(w, room)
  {
    forall d ensures d in RegisteredMembers(w.shared, room) <==> d in InRoomNow(w, room) {
      if d in InRoomNow(w, room) {
        assert IsActive(w, d);
      }
    }
  }

  /** `/join` then `/users`: the issuer is listed in the room it joined and
      no longer in the room it left; nobody else moved. */
  lemma JoinThenUsers(w: World, c: Conn, u: string, room: string, arg: string, dmWritable: bool)
    requires Inv(w)
    requires c in w.handlers && w.handlers[c] == Active(u, room)
    ensures var w' := Execute(w, c, u, room, Join(arg), dmWritable).world;
      && w'.handlers[c] == Active(u, Lower(arg))
      && c in RegisteredMembers(w'.shared, Lower(arg))
      && (room != Lower(arg) ==> c !in RegisteredMembers(w'.shared, room))
      && (forall d :: d != c && d in w.handlers ==> w'.handlers[d] == w.handlers[d])
  {
    JoinPreservesInv(w, c, u, room, arg);
  }

  /** `/leave` while in `general` leaves the registry as it was. */
  lemma LeaveInGeneralKeepsRegistry(w: World, c: Conn, u: string, dmWritable: bool)
    requires Inv(w)
    requires c in w.handlers && w.handlers[c] == Active(u, General)
    ensures Execute(w, c, u, General, Leave, dmWritable).world == w
  {
    assert InRoom(w.shared.rooms, General, c);
    LeaveFromGeneralKeeps(w.shared, c);
    assert w.handlers[c := Active(u, General)] == w.handlers;
  }

  /** A chat line reaches every other connection whose handler is in the
      sender's room, never the sender, and is echoed to the sender alone,
      exactly once. */
  lemma ChatReachesRoommates(w: World, c: Conn, u: string, room: string, text: string)
    requires Inv(w)
    requires c in w.handlers && w.handlers[c] == Active(u, room)
    ensures var r := SendChat(w, c, u, room, text);
      && r.out[0].to == InRoomNow(w, room) - {c}
      && (set i | 0 <= i < |r.out| && r.out[i].kind == Echo) == {1}
      && r.out[1].to == {c}
  {
    var r := SendChat(w, c, u, room, text);
    forall d ensures d in r.out[0].to <==> d in InRoomNow(w, room) - {c} {
      if d in InRoomNow(w, room) {
        assert IsActive(w, d);
      }
    }
    assert (set i | 0 <= i < |r.out| && r.out[i].kind == Echo) == {1} by {
      assert r.out[0].kind == Message;
    }
  }

  /** As written, a chat line ends its sender's session instead: the
      broadcast raises, cleanup runs, and nothing is relayed or echoed. */
  lemma ChatAsWrittenDropsSender(w: World, c: Conn, u: string, room: string, text: string)
    requires Inv(w)
    requires c in w.handlers && w.handlers[c] == Active(u, room)
    ensures var r := SendChatAsWritten(w, c, u, room, text);
      && r.world.handlers[c] == Closed
      && c !in r.world.shared.clients
      && (forall x :: !InRoom(r.world.shared.rooms, x, c))
      && (forall o :: o in r.out ==> o.kind == System && c !in o.to)
  {
  }

  /** The as-written chat path is, step for step, an abort of the sender's
      connection, so whatever holds after any `Abort` step (the invariant
      among it) holds for the code as written as well. */
  lemma ChatAsWrittenIsAbort(w: World, c: Conn, u: string, room: string, text: string)
    requires c in w.handlers && w.handlers[c] == Active(u, room)
    ensures SendChatAsWritten(w, c, u, room, text) == Step(w, Abort(c))
  {
  }

  /** A direct message is delivered exactly when some active handler holds
      the target name and the write succeeds; it then reaches that one
      connection only. */
  lemma DmReachesOwner(w: World, c: Conn, u: string, room: string, target: string, body: string, dmWritable: bool)
    requires Inv(w)
    requires c in w.handlers && w.handlers[c] == Active(u, room)
    ensures var r := Execute(w, c, u, room, Dm(target, body), dmWritable);
      && r.world == w
      && (r.out[|r.out| - 1] == Reply(c, System, DmSent(target)) <==>
            dmWritable && exists d :: IsActive(w, d) && w.handlers[d].username == target)
      && (r.out[|r.out| - 1] != Reply(c, System, DmSent(target)) ==>
            r.out == [Reply(c, Error, DmNotFound(target))])
      && (forall d :: d in w.shared.clients && w.shared.clients[d] == target && dmWritable ==>
            r.out == [Output({d}, DirectMessage, Whisper(u, body)), Reply(c, System, DmSent(target))])
  {
    var owners := Owners(w.shared.clients, target);
    forall d | d in w.shared.clients && w.shared.clients[d] == target
      ensures owners == {d}
    {
      assert d in owners;
    }
    if exists d :: IsActive(w, d) && w.handlers[d].username == target {
      var d :| IsActive(w, d) && w.handlers[d].username == target;
      assert d in owners;
    }
  }

  /** The first read of a fresh handler is the username. */
  lemma FirstReadLogsIn(w: World, c: Conn, data: string, dmWritable: bool)
    requires c in w.handlers && w.handlers[c] == Awaiting
    ensures Step(w, Recv(c, data, dmWritable)) == Login(w, c, data)
  {
  }

  /** Every later read of an active handler: end of stream runs the
      cleanup, a chat line is relayed, a command is executed. */
  lemma ReadDispatch(w: World, c: Conn, u: string, room: string, data: string, dmWritable: bool)
    requires c in w.handlers && w.handlers[c] == Active(u, room)
    ensures data == [] ==> Step(w, Recv(c, data, dmWritable)) == Hangup(w, c)
    ensures data != [] && Parse(data).Chat? ==>
      Step(w, Recv(c, data, dmWritable)) == SendChat(w, c, u, room, Parse(data).text)
    ensures data != [] && Parse(data).Cmd? ==>
      Step(w, Recv(c, data, dmWritable)) == Execute(w, c, u, room, Parse(data).command, dmWritable)
  {
  }

  /** Disconnect cleanup of an active handler removes its connection from
      `clients` and from every room, announces the departure to `general`
      unless the username is empty, and a second cleanup does nothing. */
  lemma HangupClearsOnce(w: World, c: Conn)
    requires Inv(w)
    requires IsActive(w, c)
    ensures var r := Step(w, Abort(c));
      && r.world.handlers[c] == Closed
      && r.world.shared.clients == w.shared.clients - {c}
      && (forall x :: !InRoom(r.world.shared.rooms, x, c))
      && (forall x, d :: d != c ==> (InRoom(r.world.shared.rooms, x, d) <==> InRoom(w.shared.rooms, x, d)))
      && (|r.out| == 1 <==> w.handlers[c].username != "")
      && (|r.out| == 1 ==> r.out[0].note == LeftChat(w.handlers[c].username)
                            && r.out[0].to == InRoomNow(w, General) - {c})
      && Step(r.world, Abort(c)) == Outcome(r.world, [])
      && Step(r.world, Accept(c)) == Outcome(r.world, [])
      && (forall data, b :: Step(r.world, Recv(c, data, b)) == Outcome(r.world, []))
  {
    var r := Step(w, Abort(c));
    if |r.out| == 1 {
      forall d ensures d in r.out[0].to <==> d in InRoomNow(w, General) - {c} {
        if d in InRoomNow(w, General) {
          assert IsActive(w, d);
        }
      }
    }
  }

  /** Under the invariant, the notices of a `/join` reach, in handler terms,
      the others still in the room left and everyone now in the room
      joined, the issuer included. */
  lemma JoinNotices(w: World, c: Conn, u: string, room: string, arg: string, dmWritable: bool)
    requires Inv(w)
    requires c in w.handlers && w.handlers[c] == Active(u, room)
    ensures var r := Execute(w, c, u, room, Join(arg), dmWritable);
      && (room != Lower(arg) ==> r.out[0].to == InRoomNow(w, room) - {c})
      && r.out[1].to == InRoomNow(r.world, Lower(arg))
  {
    var r := Execute(w, c, u, room, Join(arg), dmWritable);
    JoinPreservesInv(w, c, u, room, arg);
    if room != Lower(arg) {
      forall d ensures d in r.out[0].to <==> d in InRoomNow(w, room) - {c} {
        if d in InRoomNow(w, room) {
          assert IsActive(w, d);
        }
      }
    }
    forall d ensures d in r.out[1].to <==> d in InRoomNow(r.world, Lower(arg)) {
      if d in InRoomNow(r.world, Lower(arg)) {
        assert IsActive(r.world, d);
      }
    }
  }

  /** The same for `/leave`: the room left and `general`. */
  lemma LeaveNotices(w: World, c: Conn, u: string, room: string, dmWritable: bool)
    requires Inv(w)
    requires c in w.handlers && w.handlers[c] == Active(u, room)
    ensures var r := Execute(w, c, u, room, Leave, dmWritable);
      && (room != General ==> r.out[0].to == InRoomNow(w, room) - {c})
      && r.out[1].to == InRoomNow(r.world, General)
  {
    var r := Execute(w, c, u, room, Leave, dmWritable);
    LeavePreservesInv(w, c, u, room);
    if room != General {
      forall d ensures d in r.out[0].to <==> d in InRoomNow(w, room) - {c} {
        if d in InRoomNow(w, room) {
          assert IsActive(w, d);
        }
      }
    }
    forall d ensures d in r.out[1].to <==> d in InRoomNow(r.world, General) {
      if d in InRoomNow(r.world, General) {
        assert IsActive(r.world, d);
      }
    }
  }

  /** A read that is only whitespace is ignored: nothing changes and
      nothing is sent. */
  lemma BlankLineIgnored(w: World, c: Conn, data: string, dmWritable: bool)
    requires IsActive(w, c)
    requires data != [] && AllSpace(data)
    ensures Step(w, Recv(c, data, dmWritable)) == Outcome(w, [])
  {
  }

  /** The two reads of the scenario below trim to the same name; kept
      apart so the scenario's own proof stays small. */
  lemma AliceTrimmed()
    ensures Strip("alice") == "alice" && Strip("alice\n") == "alice"
  {
    assert Strip("alice") == "alice";
    var line := "alice\n";
    assert SkipSpace(line, 0) == 0;
    assert SkipSpaceBack(line, 0, 5) == 5;
    assert SkipSpaceBack(line, 0, 6) == 5;
    assert line[0..5] == "alice";
  }

  /** Scenario: a second client asking for a name already online is refused
      and the first keeps it. */
  lemma SecondAliceRefused()
    ensures var w := Run(Init(), [Accept(1), Recv(1, "alice", false), Accept(2), Recv(2, "alice\n", false)]);
      && w.shared.clients == map[1 := "alice"]
      && w.handlers[2] == Closed
      && w.handlers[1] == Active("alice", General)
  {
    AliceTrimmed();
    var events := [Accept(1), Recv(1, "alice", false), Accept(2), Recv(2, "alice\n", false)];
    var w0 := Init();
    var w1 := Step(w0, Accept(1)).world;
    assert w1.handlers == map[1 := Awaiting];
    var w2 := Login(w1, 1, "alice").world;
    assert Step(w1, Recv(1, "alice", false)).world == w2;
    assert w2.shared.clients == map[1 := "alice"];
    assert w2.handlers == map[1 := Active("alice", General)];
    var w3 := Step(w2, Accept(2)).world;
    assert w3.handlers == map[1 := Active("alice", General), 2 := Awaiting];
    var w4 := Login(w3, 2, "alice\n").world;
    assert Step(w3, Recv(2, "alice\n", false)).world == w4;
    assert w4.shared == w3.shared;
    assert w4.handlers == w3.handlers[2 := Closed];
    assert Run(w0, events) == Run(w1, events[1..]);
    assert Run(w1, events[1..]) == Run(w2, events[2..]);
    assert Run(w2, events[2..]) == Run(w3, events[3..]);
    assert Run(w3, events[3..]) == Run(w4, []);
  }
}

=== FILE: commands.dfy ===
/**
 * How the server reads one line from an active connection (server.py lines
 * 100-161): trim it, ignore it when nothing is left, treat it as a command
 * when it starts with '/', otherwise as a chat message.
 */
module Commands {
  import opened Text

  datatype Command =
    | Quit
    | Rooms
    | Users
    | List
    | Join(room: string)
    | Leave
    | Dm(target: string, body: string)
    | Unknown

  datatype Input = Blank | Cmd(command: Command) | Chat(text: string)

  /** The command words the server recognises, lowercased. */
  const Words: set<string> := {"/quit", "/rooms", "/users", "/list", "/join", "/leave", "/dm"}

  /** The command chain of the handler: the first part, lowercased, picks the
      command; `/join` needs a second part and `/dm` a third, and anything
      else is an unknown command. */
  function Dispatch(parts: seq<string>): (r: Command)
    requires 1 <= |parts| <= 3
    ensures r.Quit? <==> Lower(parts[0]) == "/quit"
    ensures r.Rooms? <==> Lower(parts[0]) == "/rooms"
    ensures r.Users? <==> Lower(parts[0]) == "/users"
    ensures r.List? <==> Lower(parts[0]) == "/list"
    ensures r.Join? <==> Lower(parts[0]) == "/join" && |parts| > 1
    ensures r.Join? ==> r.room == parts[1]
    ensures r.Leave? <==> Lower(parts[0]) == "/leave"
    ensures r.Dm? <==> Lower(parts[0]) == "/dm" && |parts| == 3
    ensures r.Dm? ==> r.target == parts[1] && r.body == parts[2]
    ensures r.Unknown? <==> Lower(parts[0]) !in Words || (Lower(parts[0]) == "/join" && |parts| == 1)
                            || (Lower(parts[0]) == "/dm" && |parts| < 3)
  {
    var cmd := Lower(parts[0]);
    if cmd == "/quit" then Quit
    else if cmd == "/rooms" then Rooms
    else if cmd == "/users" then Users
    else if cmd == "/list" then List
    else if cmd == "/join" && |parts| > 1 then Join(parts[1])
    else if cmd == "/leave" then Leave
    else if cmd == "/dm" && |parts| >= 3 then Dm(parts[1], parts[2])
    else Unknown
  }

  /** Classifies one decoded line of client input. */
  function Parse(data: string): (i: Input)
    ensures i == Blank <==> AllSpace(data)
    ensures i.Chat? <==> !AllSpace(data) && Strip(data)[0] != '/'
    ensures i.Chat? ==> i.text == Strip(data)
    ensures i.Cmd? <==> !AllSpace(data) && Strip(data)[0] == '/'
    ensures i.Cmd? ==> i.command == Dispatch(Split2(Strip(data)))
  {
    var message := Strip(data);
    if message == [] then Blank
    else if message[0] == '/' then Cmd(Dispatch(Split2(message)))
    else Chat(message)
  }

  /** Surrounding whitespace never changes how a read is classified, so
      the lemmas below, stated for trimmed lines, cover raw reads too. */
  lemma ParseStrip(data: string)
    ensures Parse(data) == Parse(Strip(data))
  {
    StripIdempotent(data);
  }

  /** A trimmed line that starts with '/' is dispatched on its split. */
  lemma ParseTrimmedCommand(line: string)
    requires line != [] && line[0] == '/' && !IsSpace(line[|line| - 1])
    ensures Parse(line) == Cmd(Dispatch(Split2(line)))
  {
    StripKeeps(line);
  }

  /** The same, for a line given by its parts. */
  lemma ParseCommandLine(line: string, parts: seq<string>)
    requires line != [] && line[0] == '/' && !IsSpace(line[|line| - 1])
    requires SplitShape(parts) && JoinSpace(parts) == line
    ensures Parse(line) == Cmd(Dispatch(parts))
  {
    ParseTrimmedCommand(line);
    SplitUnique(line, parts);
  }

  /** What each command word selects, given how many parts the line has. */
  lemma DispatchWord(parts: seq<string>)
    requires 1 <= |parts| <= 3
    ensures Lower(parts[0]) == "/join" ==> Dispatch(parts) == (if |parts| > 1 then Join(parts[1]) else Unknown)
    ensures Lower(parts[0]) == "/dm" ==> Dispatch(parts) == (if |parts| == 3 then Dm(parts[1], parts[2]) else Unknown)
    ensures Lower(parts[0]) !in Words ==> Dispatch(parts) == Unknown
  {
  }

  /** `<word> <room>` with a `/join` word in any letter case is a join of
      that room (lowercasing the room is the registry's business). */
  lemma ParseJoin(w: string, room: string)
    requires w != [] && w[0] == '/' && ' ' !in w && Lower(w) == "/join"
    requires room != [] && ' ' !in room && !IsSpace(room[|room| - 1])
    ensures Parse(w + " " + room) == Cmd(Join(room))
  {
    var line := w + " " + room;
    assert line[|line| - 1] == room[|room| - 1];
    assert JoinSpace([w, room]) == w + " " + JoinSpace([room]);
    ParseCommandLine(line, [w, room]);
    DispatchWord([w, room]);
  }

  /** `<word> <target> <body>` with a `/dm` word is a direct message whose
      body is everything after the second space, inner spaces included. */
  lemma ParseDm(w: string, target: string, body: string)
    requires w != [] && w[0] == '/' && ' ' !in w && Lower(w) == "/dm"
    requires ' ' !in target
    requires body != [] && !IsSpace(body[|body| - 1])
    ensures Parse(w + " " + target + " " + body) == Cmd(Dm(target, body))
  {
    var line := w + " " + target + " " + body;
    JoinSpaceShort(w, target, body);
    assert line[0] == w[0];
    assert line[|line| - 1] == body[|body| - 1];
    ParseCommandLine(line, [w, target, body]);
    DispatchWord([w, target, body]);
  }

  /** A command word on its own: `/join` and `/dm` lack their arguments and
      so are unknown commands, as is any word that is not a command word. */
  lemma ParseBareWord(w: string)
    requires w != [] && w[0] == '/' && ' ' !in w && !IsSpace(w[|w| - 1])
    ensures Lower(w) == "/join" || Lower(w) == "/dm" || Lower(w) !in Words ==> Parse(w) == Cmd(Unknown)
  {
    ParseCommandLine(w, [w]);
    DispatchWord([w]);
  }

  /** `/dm <target>` without a body is an unknown command. */
  lemma ParseDmWithoutBody(w: string, target: string)
    requires w != [] && w[0] == '/' && ' ' !in w && Lower(w) == "/dm"
    requires ' ' !in target && target != [] && !IsSpace(target[|target| - 1])
    ensures Parse(w + " " + target) == Cmd(Unknown)
  {
    var line := w + " " + target;
    assert line[|line| - 1] == target[|target| - 1];
    assert JoinSpace([w, target]) == line;
    ParseCommandLine(line, [w, target]);
    DispatchWord([w, target]);
  }

  /** A line whose first word is not a command word is an unknown command,
      whatever follows it. */
  lemma ParseUnknownWord(w: string, rest: string)
    requires w != [] && w[0] == '/' && ' ' !in w && Lower(w) !in Words
    requires rest != [] && !IsSpace(rest[|rest| - 1])
    ensures Parse(w + " " + rest) == Cmd(Unknown)
  {
    var line := w + " " + rest;
    assert line[0] == w[0];
    assert line[|line| - 1] == rest[|rest| - 1];
    ParseTrimmedCommand(line);
    SplitFirstWord(w, rest);
    assert Lower(Split2(line)[0]) !in Words;
  }
}

=== FILE: invariants.dfy ===
/**
 * The registry invariants the server relies on: usernames are unique, every
 * registered connection has an active handler that knows its name, and
 * every registered connection sits in exactly one room, the one its
 * handler's `current_room` names. Every step preserves them.
 */
module Invariants {
  import opened Wrappers
  import opened Text
  import opened Registry
  import opened Commands
  import opened Session

  /** `c`'s handler is serving commands. */
  predicate IsActive(w: World, c: Conn) {
    c in w.handlers && w.handlers[c].Active?
  }

  /** Registered connections are exactly the active handlers, under the
      name each handler registered. */
  ghost predicate Registered(w: World) {
    && (forall c :: c in w.shared.clients ==> IsActive(w, c) && w.handlers[c].username == w.shared.clients[c])
    && (forall c :: IsActive(w, c) ==> c in w.shared.clients)
  }

  /** Every active handler's connection is a member of its current room, and
      room members are active handlers whose current room it is. */
  ghost predicate Placed(w: World) {
    && (forall c :: IsActive(w, c) ==> InRoom(w.shared.rooms, w.handlers[c].room, c))
    && (forall r, c :: InRoom(w.shared.rooms, r, c) ==> IsActive(w, c) && w.handlers[c].room == r)
  }

  ghost predicate Inv(w: World) {
    && General in w.shared.rooms
    && UniqueNames(w.shared.clients)
    && Registered(w)
    && Placed(w)
  }

  /** The server starts in a state satisfying the invariant. */
  lemma InitInv()
    ensures Inv(Init())
  {
  }

  /** Under the invariant a registered connection is in exactly one room,
      its handler's current room. */
  lemma ExactlyOneRoom(w: World, c: Conn)
    requires Inv(w)
    requires c in w.shared.clients
    ensures (set r | r in w.shared.rooms && c in w.shared.rooms[r]) == {w.handlers[c].room}
  {
    var rooms := set r | r in w.shared.rooms && c in w.shared.rooms[r];
    var home := w.handlers[c].room;
    assert InRoom(w.shared.rooms, home, c);
    forall r ensures r in rooms <==> r == home {
      if r in rooms {
        assert InRoom(w.shared.rooms, r, c);
      }
    }
  }

  lemma LoginPreservesInv(w: World, c: Conn, data: string)
    requires Inv(w)
    requires c in w.handlers && w.handlers[c] == Awaiting
    ensures Inv(Login(w, c, data).world)
  {
    var name := Strip(data);
    match Register(w.shared, c, name)
    case Failure(_) =>
    case Success(s) =>
      var w' := World(s, w.handlers[c := Active(name, General)]);
      assert Login(w, c, data).world == w';
      assert c !in w.shared.clients;
      forall r, d | InRoom(s.rooms, r, d)
        ensures IsActive(w', d) && w'.handlers[d].room == r
      {
        if d != c {
          assert InRoom(w.shared.rooms, r, d);
        }
      }
  }

  lemma HangupPreservesInv(w: World, c: Conn)
    requires Inv(w)
    ensures Inv(Hangup(w, c).world)
  {
    var w' := Hangup(w, c).world;
    forall r, d | InRoom(w'.shared.rooms, r, d)
      ensures IsActive(w', d) && w'.handlers[d].room == r
    {
      assert InRoom(w.shared.rooms, r, d);
    }
  }

  lemma JoinPreservesInv(w: World, c: Conn, u: string, room: string, arg: string)
    requires Inv(w)
    requires c in w.handlers && w.handlers[c] == Active(u, room)
    ensures Inv(Execute(w, c, u, room, Join(arg), false).world)
  {
    var m := JoinRoom(w.shared, c, room, arg);
    var w' := World(m.shared, w.handlers[c := Active(u, m.room)]);
    assert Execute(w, c, u, room, Join(arg), false).world == w';
    forall r, d | InRoom(m.shared.rooms, r, d)
      ensures IsActive(w', d) && w'.handlers[d].room == r
    {
      if d != c {
        assert InRoom(w.shared.rooms, r, d);
      } else if r != m.room {
        assert InRoom(w.shared.rooms, r, c);
      }
    }
  }

  lemma LeavePreservesInv(w: World, c: Conn, u: string, room: string)
    requires Inv(w)
    requires c in w.handlers && w.handlers[c] == Active(u, room)
    ensures Inv(Execute(w, c, u, room, Leave, false).world)
  {
    var s' := LeaveRoom(w.shared, c, room);
    var w' := World(s', w.handlers[c := Active(u, General)]);
    assert Execute(w, c, u, room, Leave, false).world == w';
    forall r, d | InRoom(s'.rooms, r, d)
      ensures IsActive(w', d) && w'.handlers[d].room == r
    {
      if d != c {
        assert InRoom(w.shared.rooms, r, d);
      } else if r != General {
        assert InRoom(w.shared.rooms, r, c);
      }
    }
  }

  lemma ExecutePreservesInv(w: World, c: Conn, u: string, room: string, cmd: Command, dmWritable: bool)
    requires Inv(w)
    requires c in w.handlers && w.handlers[c] == Active(u, room)
    ensures Inv(Execute(w, c, u, room, cmd, dmWritable).world)
  {
    match cmd
    case Quit => HangupPreservesInv(w, c);
    case Join(arg) => JoinPreservesInv(w, c, u, room, arg);
    case Leave => LeavePreservesInv(w, c, u, room);
    case _ =>
  }

  /** Every event preserves the invariant. */
  lemma StepPreservesInv(w: World, e: Event)
    requires Inv(w)
    ensures Inv(Step(w, e).world)
  {
    match e
    case Accept(c) =>
    case Recv(c, data, dmWritable) =>
      if c in w.handlers {
        match w.handlers[c]
        case Awaiting => LoginPreservesInv(w, c, data);
        case Active(u, room) =>
          if data == [] {
            HangupPreservesInv(w, c);
          } else if Parse(data).Cmd? {
            ExecutePreservesInv(w, c, u, room, Parse(data).command, dmWritable);
          }
        case Closed =>
      }
    case Abort(c) =>
      HangupPreservesInv(w, c);
  }

  /** Every world the server can reach satisfies the invariant. */
  lemma {:induction false} RunPreservesInv(w: World, events: seq<Event>)
    requires Inv(w)
    ensures Inv(Run(w, events))
    decreases |events|
  {
    if events != [] {
      StepPreservesInv(w, events[0]);
      RunPreservesInv(Step(w, events[0]).world, events[1..]);
    }
  }

  lemma ReachableInv(events: seq<Event>)
    ensures Inv(Run(Init(), events))
  {
    InitInv();
    RunPreservesInv(Init(), events);
  }
}

=== FILE: registry.dfy ===
/**
 * The server's shared registry: `clients` maps each connection to its
 * username and `rooms` maps each room name to its member connections
 * (server.py lines 17-18). Every operation here is one critical section
 * executed while holding the registry lock, so each is a pure transition.
 */
module Registry {
  import opened Wrappers
  import opened Text

  /** A connection is an opaque handle: only its identity matters. */
  type Conn = nat

  type RoomMap = map<string, set<Conn>>

  /** The default room every new user lands in and `/leave` returns to. */
  const General: string := "general"

  datatype Shared = Shared(clients: map<Conn, string>, rooms: RoomMap)

  datatype RegisterError = UsernameTaken

  /** The outcome of `/join`: the new registry and the handler's new room. */
  datatype Move = Move(shared: Shared, room: string)

  /** The outcome of disconnect cleanup: the new registry and, when the
      connection was registered, the username that left. */
  datatype Departure = Departure(shared: Shared, gone: Option<string>)

  predicate InRoom(rooms: RoomMap, r: string, c: Conn) {
    r in rooms && c in rooms[r]
  }

  /** No two connections hold the same username. */
  predicate UniqueNames(clients: map<Conn, string>) {
    forall a, b :: a in clients && b in clients && a != b ==> clients[a] != clients[b]
  }

  /** The connections registered under `name`. */
  function Owners(clients: map<Conn, string>, name: string): set<Conn> {
    set c | c in clients && clients[c] == name
  }

  /** The state the server starts in: nobody online, three empty rooms. */
  function Initial(): (s: Shared)
    ensures s.clients == map[]
    ensures s.rooms.Keys == {General, "tech", "random"}
    ensures forall r :: r in s.rooms ==> s.rooms[r] == {}
  {
    Shared(map[], map[General := {}, "tech" := {}, "random" := {}])
  }

  /** `rooms[r].add(c)`; a missing room is created (never the case for the
      rooms the server indexes this way, which always exist). */
  function AddMember(rooms: RoomMap, r: string, c: Conn): RoomMap {
    rooms[r := (if r in rooms then rooms[r] else {}) + {c}]
  }

  /** `rooms[r].discard(c)`. */
  function DiscardMember(rooms: RoomMap, r: string, c: Conn): RoomMap {
    if r in rooms then rooms[r := rooms[r] - {c}] else rooms
  }

  /** Username registration: refused when the name is already held, otherwise
      binds `c` to `name` and puts `c` in `general`. */
  function Register(s: Shared, c: Conn, name: string): (r: Result<Shared, RegisterError>)
    ensures r.Failure? <==> name in s.clients.Values
    ensures r.Success? ==> r.value.clients.Keys == s.clients.Keys + {c}
    ensures r.Success? ==> r.value.clients[c] == name
    ensures r.Success? ==> forall d :: d in s.clients && d != c ==> r.value.clients[d] == s.clients[d]
    ensures r.Success? ==> r.value.rooms.Keys == s.rooms.Keys + {General}
    ensures r.Success? ==> forall x, d :: InRoom(r.value.rooms, x, d) <==> InRoom(s.rooms, x, d) || (x == General && d == c)
    ensures r.Success? && UniqueNames(s.clients) ==> UniqueNames(r.value.clients)
  {
    if name in s.clients.Values then Failure(UsernameTaken)
    else Success(Shared(s.clients[c := name], AddMember(s.rooms, General, c)))
  }

  /** `/join <arg>` issued by `c` whose handler is in room `current`: the room
      name is lowercased, created empty if unknown, and `c` moves there. */
  function JoinRoom(s: Shared, c: Conn, current: string, arg: string): (m: Move)
    ensures m.room == Lower(arg)
    ensures m.shared.clients == s.clients
    ensures m.shared.rooms.Keys == s.rooms.Keys + {m.room}
    ensures InRoom(m.shared.rooms, m.room, c)
    ensures current != m.room ==> !InRoom(m.shared.rooms, current, c)
    ensures forall x :: x != current && x != m.room ==> (InRoom(m.shared.rooms, x, c) <==> InRoom(s.rooms, x, c))
    ensures forall x, d :: d != c ==> (InRoom(m.shared.rooms, x, d) <==> InRoom(s.rooms, x, d))
    ensures m.room !in s.rooms ==> m.shared.rooms[m.room] == {c}
  {
    var room := Lower(arg);
    var created := if room in s.rooms then s.rooms else s.rooms[room := {}];
    Move(Shared(s.clients, AddMember(DiscardMember(created, current, c), room, c)), room)
  }

  /** `/leave` issued by `c` whose handler is in room `current`: `c` goes back
      to `general`. */
  function LeaveRoom(s: Shared, c: Conn, current: string): (r: Shared)
    ensures r.clients == s.clients
    ensures r.rooms.Keys == s.rooms.Keys + {General}
    ensures InRoom(r.rooms, General, c)
    ensures current != General ==> !InRoom(r.rooms, current, c)
    ensures forall x :: x != current && x != General ==> (InRoom(r.rooms, x, c) <==> InRoom(s.rooms, x, c))
    ensures forall x, d :: d != c ==> (InRoom(r.rooms, x, d) <==> InRoom(s.rooms, x, d))
  {
    Shared(s.clients, AddMember(DiscardMember(s.rooms, current, c), General, c))
  }

  /** Cleanup when the handler of `c` ends: a registered `c` is dropped from
      `clients` and from every room; an unregistered one changes nothing. */
  function Disconnect(s: Shared, c: Conn): (d: Departure)
    ensures d.gone.Some? <==> c in s.clients
    ensures d.gone.Some? ==> d.gone.value == s.clients[c]
    ensures d.shared.clients == s.clients - {c}
    ensures d.shared.rooms.Keys == s.rooms.Keys
    ensures forall x, e :: InRoom(d.shared.rooms, x, e) <==> InRoom(s.rooms, x, e) && (e != c || c !in s.clients)
    ensures c !in s.clients ==> d.shared == s
  {
    if c in s.clients then
      Departure(Shared(s.clients - {c}, map x | x in s.rooms :: s.rooms[x] - {c}), Some(s.clients[c]))
    else
      Departure(s, None)
  }

  /** The connections a broadcast to `room` reaches: the room's members at
      the moment of the snapshot, minus `sender` when one is given. */
  function BroadcastTargets(rooms: RoomMap, room: string, sender: Option<Conn>): (t: set<Conn>)
    ensures forall d :: d in t <==> InRoom(rooms, room, d) && sender != Some(d)
    ensures room !in rooms ==> t == {}
    ensures sender.Some? ==> sender.value !in t
    ensures sender.None? && room in rooms ==> t == rooms[room]
  {
    if room !in rooms then {}
    else if sender.Some? then rooms[room] - {sender.value}
    else rooms[room]
  }

  /** The registered members of `room`: what `/users` reports. */
  function RegisteredMembers(s: Shared, room: string): set<Conn> {
    set c | c in s.clients && InRoom(s.rooms, room, c)
  }

  predicate Distinct<T(==)>(xs: seq<T>) {
    forall i, j :: 0 <= i < j < |xs| ==> xs[i] != xs[j]
  }

  /** Lists the elements of a set in some order, each exactly once, as
      iterating a Python set does. */
  method Enumerate<T(==)>(s: set<T>) returns (xs: seq<T>)
    ensures Distinct(xs)
    ensures forall x :: x in xs <==> x in s
    ensures |xs| == |s|
  {
    xs := [];
    var rest := s;
    while rest != {}
      invariant rest <= s
      invariant Distinct(xs)
      invariant forall x :: x in xs <==> x in s && x !in rest
      invariant |xs| + |rest| == |s|
      decreases |rest|
    {
      var x :| x in rest;
      xs := xs + [x];
      rest := rest - {x};
    }
  }

  /** The username lookup a direct message starts with: some connection
      registered under `name`, or none when nobody is. */
  method FindByUsername(clients: map<Conn, string>, name: string) returns (r: Option<Conn>)
    ensures r.Some? <==> name in clients.Values
    ensures r.Some? ==> r.value in Owners(clients, name)
    ensures r.Some? && UniqueNames(clients) ==> Owners(clients, name) == {r.value}
  {
    var keys := clients.Keys;
    r := None;
    while keys != {}
      invariant keys <= clients.Keys
      invariant r.None? ==> forall d :: d in clients && d !in keys ==> clients[d] != name
      invariant r.Some? ==> r.value in clients && clients[r.value] == name
      decreases |keys|
    {
      var d :| d in keys;
      if r.None? && clients[d] == name {
        r := Some(d);
      }
      keys := keys - {d};
    }
    if r.None? {
      assert forall d :: d in clients ==> clients[d] != name;
    }
  }

  /** `/users`: the usernames of the registered members of `room`, one per
      member, in set-iteration order. */
  method RoomUsers(s: Shared, room: string) returns (who: seq<Conn>, names: seq<string>)
    ensures Distinct(who)
    ensures forall d :: d in who <==> d in RegisteredMembers(s, room)
    ensures |names| == |who|
    ensures forall i :: 0 <= i < |who| ==> who[i] in s.clients && names[i] == s.clients[who[i]]
  {
    who := Enumerate(RegisteredMembers(s, room));
    assert forall k :: 0 <= k < |who| ==> who[k] in RegisteredMembers(s, room);
    names := [];
    var i := 0;
    while i < |who|
      invariant 0 <= i <= |who|
      invariant |names| == i
      invariant forall k :: 0 <= k < i ==> names[k] == s.clients[who[k]]
    {
      names := names + [s.clients[who[i]]];
      i := i + 1;
    }
  }

  /** `/list`: the username of every registered connection, one each. */
  method OnlineUsers(clients: map<Conn, string>) returns (who: seq<Conn>, names: seq<string>)
    ensures Distinct(who)
    ensures forall d :: d in who <==> d in clients
    ensures |names| == |who| == |clients|
    ensures forall i :: 0 <= i < |who| ==> names[i] == clients[who[i]]
  {
    who := Enumerate(clients.Keys);
    assert forall k :: 0 <= k < |who| ==> who[k] in clients.Keys;
    names := [];
    var i := 0;
    while i < |who|
      invariant 0 <= i <= |who|
      invariant |names| == i
      invariant forall k :: 0 <= k < i ==> names[k] == clients[who[k]]
    {
      names := names + [clients[who[i]]];
      i := i + 1;
    }
  }

  /** `/rooms`: every room with its current member count. */
  method RoomSummaries(rooms: RoomMap) returns (summary: seq<(string, nat)>)
    ensures |summary| == |rooms|
    ensures forall r :: r in rooms <==> exists i :: 0 <= i < |summary| && summary[i].0 == r
    ensures forall i :: 0 <= i < |summary| ==> summary[i].0 in rooms && summary[i].1 == |rooms[summary[i].0]|
    ensures forall i, j :: 0 <= i < j < |summary| ==> summary[i].0 != summary[j].0
  {
    var names := Enumerate(rooms.Keys);
    summary := [];
    var i := 0;
    while i < |names|
      invariant 0 <= i <= |names|
      invariant |summary| == i
      invariant forall k :: 0 <= k < i ==> summary[k] == (names[k], |rooms[names[k]]|)
    {
      summary := summary + [(names[i], |rooms[names[i]]|)];
      i := i + 1;
    }
  }

  /** `/leave` while already in `general` changes nothing. */
  lemma LeaveFromGeneralKeeps(s: Shared, c: Conn)
    requires InRoom(s.rooms, General, c)
    ensures LeaveRoom(s, c, General) == s
  {
    assert s.rooms[General] - {c} + {c} == s.rooms[General];
  }

  /** `/join` of the room the connection is already in changes nothing. */
  lemma JoinCurrentRoomKeeps(s: Shared, c: Conn, current: string, arg: string)
    requires Lower(arg) == current
    requires InRoom(s.rooms, current, c)
    ensures JoinRoom(s, c, current, arg).shared == s
  {
    assert s.rooms[current] - {c} + {c} == s.rooms[current];
  }

  /** Cleanup is idempotent: a second cleanup of the same connection finds
      nothing to remove and reports no departure. */
  lemma DisconnectIdempotent(s: Shared, c: Conn)
    ensures Disconnect(Disconnect(s, c).shared, c) == Departure(Disconnect(s, c).shared, None)
  {
  }
}

=== FILE: session.dfy ===
/**
 * One connection handler per client (server.py `handle_client`, lines
 * 72-174), driven by the events its socket produces. The world holds the
 * shared registry and, for every connection ever accepted, the phase of its
 * handler together with the handler's own `username` and `current_room`.
 * Each step is one critical section plus the sends that follow it; sends
 * are recorded as outputs with the set of connections they reach.
 */
module Session {
  import opened Wrappers
  import opened Text
  import opened Registry
  import opened Commands

  /** A handler waits for its username, then serves commands with a
      username and a current room, then is finished. */
  datatype Phase = Awaiting | Active(username: string, room: string) | Closed

  datatype World = World(shared: Shared, handlers: map<Conn, Phase>)

  /** The `type` field of an outbound record. */
  datatype Kind = Message | Echo | DirectMessage | System | Error

  /** What an outbound record says (its text is left out). */
  datatype Note =
    | Prompt
    | Taken(name: string)
    | Welcome(name: string)
    | JoinedChat(name: string)
    | RoomCounts(counts: map<string, nat>)
    | UsersIn(room: string, who: set<Conn>)
    | Online(who: set<Conn>)
    | LeftNotice(name: string)
    | JoinedRoom(name: string, room: string)
    | JoinedAck(room: string)
    | LeftRoom(name: string, room: string)
    | Returned(name: string)
    | ReturnedAck
    | Whisper(from: string, body: string)
    | DmSent(target: string)
    | DmNotFound(target: string)
    | UnknownCommand
    | Said(sender: string, room: string, text: string)
    | Echoed(room: string, text: string)
    | LeftChat(name: string)

  /** One record sent to every connection in `to`. */
  datatype Output = Output(to: set<Conn>, kind: Kind, note: Note)

  datatype Outcome = Outcome(world: World, out: seq<Output>)

  /** What a connection's socket can do: be accepted, deliver one read
      (`data == ""` is end of stream), or fail. `dmWritable` says whether a
      direct message sent while handling this read reaches its target's
      socket. */
  datatype Event =
    | Accept(c: Conn)
    | Recv(c: Conn, data: string, dmWritable: bool)
    | Abort(c: Conn)

  function Init(): World {
    World(Initial(), map[])
  }

  function Reply(c: Conn, kind: Kind, note: Note): Output {
    Output({c}, kind, note)
  }

  /** A `broadcast` with no sender: every member of `room` hears it. */
  function Announce(rooms: RoomMap, room: string, note: Note): Output {
    Output(BroadcastTargets(rooms, room, None), System, note)
  }

  /** The username negotiation of lines 78-92: the first read, trimmed, is
      the candidate name. A taken name ends the handler with an error and no
      registry change; otherwise the user is welcomed and announced to
      `general` (the announcement reaches the new user too). */
  function Login(w: World, c: Conn, data: string): (r: Outcome)
    ensures var name := Strip(data);
      name in w.shared.clients.Values ==>
        r == Outcome(w.(handlers := w.handlers[c := Closed]), [Reply(c, Error, Taken(name))])
    ensures var name := Strip(data);
      name !in w.shared.clients.Values ==>
        && r.world.handlers == w.handlers[c := Active(name, General)]
        && r.world.shared.clients == w.shared.clients[c := name]
        && r.world.shared == Register(w.shared, c, name).value
        && |r.out| == 2 && r.out[0] == Reply(c, System, Welcome(name))
        && r.out[1].kind == System && r.out[1].note == JoinedChat(name)
        && (forall d :: d in r.out[1].to <==> InRoom(r.world.shared.rooms, General, d))
        && c in r.out[1].to
  {
    var name := Strip(data);
    match Register(w.shared, c, name)
    case Failure(_) =>
      Outcome(w.(handlers := w.handlers[c := Closed]), [Reply(c, Error, Taken(name))])
    case Success(s) =>
      Outcome(World(s, w.handlers[c := Active(name, General)]),
              [Reply(c, System, Welcome(name)), Announce(s.rooms, General, JoinedChat(name))])
  }

  /** The handler of `c` registered a non-empty username: the `if username:`
      test of line 171. */
  predicate HasName(w: World, c: Conn) {
    c in w.handlers && w.handlers[c].Active? && w.handlers[c].username != ""
  }

  /** The `finally` block of lines 165-174: a registered connection leaves
      `clients` and every room, and unless its username is empty the
      departure is announced to `general`; the handler is finished. */
  function Hangup(w: World, c: Conn): (r: Outcome)
    ensures c in r.world.handlers && r.world.handlers[c] == Closed
    ensures forall d :: d != c ==> (d in r.world.handlers <==> d in w.handlers)
    ensures forall d :: d != c && d in w.handlers ==> r.world.handlers[d] == w.handlers[d]
    ensures r.world.shared == Disconnect(w.shared, c).shared
    ensures |r.out| <= 1
    ensures |r.out| == 1 <==> c in w.shared.clients && HasName(w, c)
    ensures |r.out| == 1 ==>
      && r.out[0].kind == System
      && r.out[0].note == LeftChat(w.shared.clients[c])
      && (forall d :: d in r.out[0].to <==> InRoom(r.world.shared.rooms, General, d))
    ensures forall o :: o in r.out ==> c !in o.to
  {
    var d := Disconnect(w.shared, c);
    var out := if d.gone.Some? && HasName(w, c) then [Announce(d.shared.rooms, General, LeftChat(d.gone.value))] else [];
    Outcome(World(d.shared, w.handlers[c := Closed]), out)
  }

  /** A plain chat line from `c`, as evidently intended at lines 159-161:
      relayed to the other members of the sender's room and echoed back. */
  function SendChat(w: World, c: Conn, u: string, room: string, text: string): (r: Outcome)
    ensures r.world == w
    ensures |r.out| == 2
    ensures r.out[0].kind == Message && r.out[0].note == Said(u, room, text)
    ensures forall d :: d in r.out[0].to <==> d != c && InRoom(w.shared.rooms, room, d)
    ensures r.out[1] == Reply(c, Echo, Echoed(room, text))
  {
    Outcome(w, [Output(BroadcastTargets(w.shared.rooms, room, Some(c)), Message, Said(u, room, text)),
                Reply(c, Echo, Echoed(room, text))])
  }

  /** The `sender` field of a record as `sender or "Server"` computes it
      (line 26): a room broadcast with a sender carries the socket object. */
  datatype SenderField = Named(name: string) | SocketObject(c: Conn)

  function RecordSender(sender: Option<Conn>): SenderField {
    if sender.Some? then SocketObject(sender.value) else Named("Server")
  }

  /** `json.dumps` encodes strings but raises `TypeError` on a socket. */
  predicate Serializable(f: SenderField) {
    f.Named?
  }

  /** `broadcast` as written (lines 22-39): the record is encoded before the
      snapshot, so a sender that cannot be encoded raises before anything is
      sent. */
  function BroadcastAsWritten(rooms: RoomMap, room: string, sender: Option<Conn>): (r: Result<set<Conn>, string>)
    ensures r.Success? <==> sender.None?
    ensures r.Success? ==> r.value == BroadcastTargets(rooms, room, sender)
  {
    if Serializable(RecordSender(sender)) then Success(BroadcastTargets(rooms, room, sender))
    else Failure("TypeError")
  }

  /** A plain chat line as written (lines 158-161): `broadcast` is passed
      the socket as sender, raises, and the exception ends the handler
      through its cleanup. */
  function SendChatAsWritten(w: World, c: Conn, u: string, room: string, text: string): Outcome {
    match BroadcastAsWritten(w.shared.rooms, room, Some(c))
    case Success(targets) =>
      Outcome(w, [Output(targets, Message, Said(u, room, text)), Reply(c, Echo, Echoed(room, text))])
    case Failure(_) =>
      Hangup(w, c)
  }

  /** The command chain of lines 105-157 for a handler of `c` named `u`
      whose current room is `room`. */
  function Execute(w: World, c: Conn, u: string, room: string, cmd: Command, dmWritable: bool): (r: Outcome)
    ensures cmd.Quit? ==> r == Hangup(w, c)
    ensures cmd.Rooms? || cmd.Users? || cmd.List? || cmd.Dm? || cmd.Unknown? ==> r.world == w
    ensures cmd.Rooms? ==>
      && |r.out| == 1 && r.out[0].to == {c} && r.out[0].kind == System && r.out[0].note.RoomCounts?
      && r.out[0].note.counts.Keys == w.shared.rooms.Keys
      && (forall x :: x in w.shared.rooms ==> r.out[0].note.counts[x] == |w.shared.rooms[x]|)
    ensures cmd.Users? ==>
      && |r.out| == 1 && r.out[0].to == {c} && r.out[0].kind == System && r.out[0].note.UsersIn?
      && r.out[0].note.room == room
      && (forall d :: d in r.out[0].note.who <==> d in w.shared.clients && InRoom(w.shared.rooms, room, d))
    ensures cmd.List? ==> r.out == [Output({c}, System, Online(w.shared.clients.Keys))]
    ensures cmd.Unknown? ==> r.out == [Output({c}, Error, UnknownCommand)]
    ensures cmd.Join? ==>
      var target := Lower(cmd.room);
      && r.world.handlers == w.handlers[c := Active(u, target)]
      && r.world.shared == JoinRoom(w.shared, c, room, cmd.room).shared
      && |r.out| == 3
      && r.out[0].kind == System && r.out[0].note == LeftNotice(u)
      && (forall d :: d in r.out[0].to <==> InRoom(r.world.shared.rooms, room, d))
      && r.out[1].kind == System && r.out[1].note == JoinedRoom(u, target)
      && (forall d :: d in r.out[1].to <==> InRoom(r.world.shared.rooms, target, d))
      && c in r.out[1].to && (room != target ==> c !in r.out[0].to)
      && r.out[2] == Output({c}, System, JoinedAck(target))
    ensures cmd.Leave? ==>
      && r.world.handlers == w.handlers[c := Active(u, General)]
      && r.world.shared == LeaveRoom(w.shared, c, room)
      && |r.out| == 3
      && r.out[0].kind == System && r.out[0].note == LeftRoom(u, room)
      && (forall d :: d in r.out[0].to <==> InRoom(r.world.shared.rooms, room, d))
      && r.out[1].kind == System && r.out[1].note == Returned(u)
      && (forall d :: d in r.out[1].to <==> InRoom(r.world.shared.rooms, General, d))
      && c in r.out[1].to && (room != General ==> c !in r.out[0].to)
      && r.out[2] == Output({c}, System, ReturnedAck)
  {
    var s := w.shared;
    match cmd
    case Quit => Hangup(w, c)
    case Rooms => Outcome(w, [Reply(c, System, RoomCounts(map x | x in s.rooms :: |s.rooms[x]|))])
    case Users => Outcome(w, [Reply(c, System, UsersIn(room, RegisteredMembers(s, room)))])
    case List => Outcome(w, [Reply(c, System, Online(s.clients.Keys))])
    case Join(arg) =>
      var m := JoinRoom(s, c, room, arg);
      Outcome(World(m.shared, w.handlers[c := Active(u, m.room)]),
              [Announce(m.shared.rooms, room, LeftNotice(u)),
               Announce(m.shared.rooms, m.room, JoinedRoom(u, m.room)),
               Reply(c, System, JoinedAck(m.room))])
    case Leave =>
      var s' := LeaveRoom(s, c, room);
      Outcome(World(s', w.handlers[c := Active(u, General)]),
              [Announce(s'.rooms, room, LeftRoom(u, room)),
               Announce(s'.rooms, General, Returned(u)),
               Reply(c, System, ReturnedAck)])
    case Dm(target, body) =>
      var owners := Owners(s.clients, target);
      if owners != {} && dmWritable then
        Outcome(w, [Output(owners, DirectMessage, Whisper(u, body)), Reply(c, System, DmSent(target))])
      else
        Outcome(w, [Reply(c, Error, DmNotFound(target))])
    case Unknown => Outcome(w, [Reply(c, Error, UnknownCommand)])
  }

  /** One event. Events for connections that were never accepted, reads on a
      finished handler and a second accept of the same connection do not
      occur; they leave the world as it is. */
  function Step(w: World, e: Event): (r: Outcome)
    ensures e.c in r.world.handlers <==> e.c in w.handlers || e.Accept?
    ensures forall d :: d != e.c ==> (d in r.world.handlers <==> d in w.handlers)
    ensures forall d :: d != e.c && d in w.handlers ==> r.world.handlers[d] == w.handlers[d]
    ensures forall d :: d != e.c ==> (d in r.world.shared.clients <==> d in w.shared.clients)
    ensures forall d :: d != e.c && d in w.shared.clients ==> r.world.shared.clients[d] == w.shared.clients[d]
    ensures forall x, d :: d != e.c ==> (InRoom(r.world.shared.rooms, x, d) <==> InRoom(w.shared.rooms, x, d))
  {
    match e
    case Accept(c) =>
      if c in w.handlers then Outcome(w, [])
      else Outcome(w.(handlers := w.handlers[c := Awaiting]), [Reply(c, System, Prompt)])
    case Recv(c, data, dmWritable) =>
      if c !in w.handlers then Outcome(w, [])
      else
        match w.handlers[c] {
          case Awaiting => Login(w, c, data)
          case Active(u, room) =>
            if data == [] then Hangup(w, c)
            else
              match Parse(data) {
                case Blank => Outcome(w, [])
                case Chat(text) => SendChat(w, c, u, room, text)
                case Cmd(cmd) => Execute(w, c, u, room, cmd, dmWritable)
              }
          case Closed => Outcome(w, [])
        }
    case Abort(c) =>
      if c in w.handlers && !w.handlers[c].Closed? then Hangup(w, c) else Outcome(w, [])
  }

  /** The world after a sequence of events. */
  function Run(w: World, events: seq<Event>): World
    decreases |events|
  {
    if events == [] then w else Run(Step(w, events[0]).world, events[1..])
  }
}

=== FILE: text.dfy ===
/**
 * ASCII models of the three Python string operations the server applies to
 * client input: `str.strip()`, `str.lower()` and `str.split(" ", 2)`.
 */
module Text {

  /** Python's `str.isspace()` on ASCII: space, \t \n \v \f \r and the
      separators 0x1C-0x1F. Characters outside ASCII count as non-space. */
  predicate IsSpace(ch: char) {
    ch == ' ' || (9 <= ch as int <= 13) || (28 <= ch as int <= 31)
  }

  /** Every character of `s` at positions `lo .. hi - 1` is whitespace. */
  predicate SpaceBetween(s: string, lo: int, hi: int) {
    forall k :: lo <= k < hi && 0 <= k < |s| ==> IsSpace(s[k])
  }

  predicate AllSpace(s: string) {
    SpaceBetween(s, 0, |s|)
  }

  /** The first position at or after `i` that is not whitespace (or `|s|`). */
  function SkipSpace(s: string, i: nat): (j: nat)
    requires i <= |s|
    ensures i <= j <= |s|
    ensures SpaceBetween(s, i, j)
    ensures j < |s| ==> !IsSpace(s[j])
    decreases |s| - i
  {
    if i < |s| && IsSpace(s[i]) then SkipSpace(s, i + 1) else i
  }

  /** The end of `s[lo..hi]` once its trailing whitespace is dropped. */
  function SkipSpaceBack(s: string, lo: nat, hi: nat): (e: nat)
    requires lo <= hi <= |s|
    ensures lo <= e <= hi
    ensures SpaceBetween(s, e, hi)
    ensures e > lo ==> !IsSpace(s[e - 1])
  {
    if hi > lo && IsSpace(s[hi - 1]) then SkipSpaceBack(s, lo, hi - 1) else hi
  }

  /** True when `r` is `s` with the whitespace before position `i` and after
      position `i + |r|` removed. */
  predicate PaddedBy(s: string, r: string, i: int) {
    0 <= i && i + |r| <= |s| && r == s[i..i + |r|]
    && SpaceBetween(s, 0, i) && SpaceBetween(s, i + |r|, |s|)
  }

  /** Python's `str.strip()`: the core of `s` between leading and trailing
      whitespace. */
  function Strip(s: string): (r: string)
    ensures r != [] ==> !IsSpace(r[0]) && !IsSpace(r[|r| - 1])
    ensures PaddedBy(s, r, SkipSpace(s, 0))
    ensures r == [] <==> AllSpace(s)
  {
    var i := SkipSpace(s, 0);
    var e := SkipSpaceBack(s, i, |s|);
    if e == i then
      SpaceBetweenJoin(s, 0, i, |s|);
      []
    else
      s[i..e]
  }

  lemma SpaceBetweenJoin(s: string, lo: int, mid: int, hi: int)
    requires SpaceBetween(s, lo, mid) && SpaceBetween(s, mid, hi)
    ensures SpaceBetween(s, lo, hi)
  {
  }

  /** A string without whitespace at either end is left alone by `Strip`. */
  lemma StripKeeps(s: string)
    requires s == [] || (!IsSpace(s[0]) && !IsSpace(s[|s| - 1]))
    ensures Strip(s) == s
  {
  }

  lemma StripIdempotent(s: string)
    ensures Strip(Strip(s)) == Strip(s)
  {
    StripKeeps(Strip(s));
  }

  /** Python's `str.lower()` on one ASCII character. */
  function LowerChar(ch: char): char {
    if 'A' <= ch <= 'Z' then (ch as int + 32) as char else ch
  }

  /** Python's `str.lower()`: every character lowered, length unchanged. */
  function Lower(s: string): (r: string)
    ensures |r| == |s|
    ensures forall k :: 0 <= k < |s| ==> r[k] == LowerChar(s[k])
  {
    if s == [] then [] else [LowerChar(s[0])] + Lower(s[1..])
  }

  /** Index of the first ' ' in `s`, or `|s|` when there is none. */
  function FindSpace(s: string): (i: nat)
    ensures i <= |s|
    ensures i < |s| ==> s[i] == ' '
    ensures ' ' !in s[..i]
  {
    if s == [] || s[0] == ' ' then 0
    else
      var i := 1 + FindSpace(s[1..]);
      assert s[..i] == [s[0]] + s[1..][..i - 1];
      i
  }

  /** Glues parts back together with one ' ' between neighbours: the inverse
      of `Split2`. */
  function JoinSpace(parts: seq<string>): string
    requires |parts| >= 1
  {
    if |parts| == 1 then parts[0] else parts[0] + " " + JoinSpace(parts[1..])
  }

  lemma JoinSpaceShort(a: string, b: string, c: string)
    ensures JoinSpace([a]) == a
    ensures JoinSpace([a, b]) == a + " " + b
    ensures JoinSpace([a, b, c]) == a + " " + b + " " + c
  {
    assert [a, b][1..] == [b];
    assert [a, b, c][1..] == [b, c];
    assert [b, c][1..] == [c];
    assert JoinSpace([b, c]) == b + " " + c;
    assert JoinSpace([a, b, c]) == a + " " + (b + " " + c);
    assert a + " " + (b + " " + c) == a + " " + b + " " + c;
  }

  /** The shape `s.split(" ", 2)` returns: one to three parts, none but the
      third containing ' '. */
  predicate SplitShape(parts: seq<string>) {
    && 1 <= |parts| <= 3
    && (forall k :: 0 <= k < |parts| && (k < 2 || k < |parts| - 1) ==> ' ' !in parts[k])
  }

  /** Python's `s.split(" ", 2)`: split at the first two single spaces;
      consecutive spaces give empty parts and the third part keeps the rest
      of the line, spaces included. */
  function Split2(s: string): (parts: seq<string>)
    ensures SplitShape(parts)
    ensures JoinSpace(parts) == s
  {
    var i := FindSpace(s);
    if i == |s| then
      assert s[..i] == s;
      [s]
    else
      var rest := s[i + 1..];
      var j := FindSpace(rest);
      assert s == s[..i] + " " + rest;
      if j == |rest| then
        assert rest[..j] == rest;
        assert JoinSpace([s[..i], rest]) == s[..i] + " " + JoinSpace([rest]);
        [s[..i], rest]
      else
        var tail := rest[j + 1..];
        assert rest == rest[..j] + " " + tail;
        assert JoinSpace([rest[..j], tail]) == rest[..j] + " " + JoinSpace([tail]);
        assert JoinSpace([s[..i], rest[..j], tail]) == s[..i] + " " + JoinSpace([rest[..j], tail]);
        [s[..i], rest[..j], tail]
  }

  /** A space-free word followed by a space: the first space is right after it. */
  lemma {:induction false} FindSpaceAfterWord(w: string, tail: string)
    requires ' ' !in w
    ensures FindSpace(w + " " + tail) == |w|
  {
    if w != [] {
      assert (w + " " + tail)[1..] == w[1..] + " " + tail;
      FindSpaceAfterWord(w[1..], tail);
    }
  }

  /** The first part of a split is the leading space-free word. */
  lemma SplitFirstWord(w: string, tail: string)
    requires ' ' !in w
    ensures Split2(w + " " + tail)[0] == w
  {
    var line := w + " " + tail;
    FindSpaceAfterWord(w, tail);
    assert line[..|w|] == w;
  }

  /** `Split2` is the only split of `s` with the shape of `s.split(" ", 2)`:
      any parts of that shape that glue back to `s` are `Split2(s)`. */
  lemma {:induction false} SplitUnique(s: string, parts: seq<string>)
    requires SplitShape(parts)
    requires JoinSpace(parts) == s
    ensures parts == Split2(s)
  {
    var p0 := parts[0];
    if |parts| == 1 {
      assert FindSpace(s) == |s|;
    } else {
      var rest := JoinSpace(parts[1..]);
      assert s == p0 + " " + rest;
      FindSpaceAfterWord(p0, rest);
      assert s[..|p0|] == p0;
      assert s[|p0| + 1..] == rest;
      var p1 := parts[1];
      if |parts| == 2 {
        assert rest == p1;
        assert FindSpace(rest) == |rest|;
      } else {
        var p2 := parts[2];
        assert parts[1..][1..] == [p2];
        assert rest == p1 + " " + JoinSpace(parts[1..][1..]);
        assert rest == p1 + " " + p2;
        FindSpaceAfterWord(p1, p2);
        assert rest[..|p1|] == p1;
        assert rest[|p1| + 1..] == p2;
      }
    }
  }
}

=== FILE: wrappers.dfy ===
/** Failure-compatible wrappers shared by the chat-server model. */
module Wrappers {

  /** An optional value: Python's `None` versus a present value. */
  datatype Option<+T> = None | Some(value: T)

  /** The outcome of an operation that can fail with an error of type E. */
  datatype Result<+T, +E> = Success(value: T) | Failure(error: E)
}
